=== FILE: README.md ===
# Murphy bed geometry and assembly search, in Dafny

This project models the planar geometry of a fold-down (Murphy) bed. It
also models the search that assembles the bed's links. Everything is stated
over exact reals.

- **Bedframe.** A four-corner slab, with its corners and extents.
- **Links.** Rotating rods with a distal end, two side edges, a bounding
  box, a floor-crossing estimate and an "ikea" assembly error. The ikea
  error measures how far the rod's distal end is from its attachment
  point. That point is fixed in the bedframe's own frame.
- **Points and segments.** 2-D point and segment arithmetic, including the
  point-to-point and point-to-line distances.
- **Assembly search.** A coordinate-wise finite-difference search.
  - Each step nudges one of five free variables: the three link angles and
    the bedframe's x and y.
  - It nudges them in a fixed order, to drive the summed ikea error toward
    zero.
  - It runs for at most 10000 rounds.
- **Early drafts.** The drafts have a six-point bedframe profile with a
  headboard and pillow step, a bare rod, and a planning record with a
  status flag. The top-level draft also has its own degree-to-radian
  conversion.

How the numerics are represented:

- **Cosine and sine.** These are abstract functions supplied in a `Trig`
  record and applied to `radians(angle)`. Length facts and rotation-inverse
  facts assume cos² + sin² = 1 at the angle concerned (`UnitAt`, or
  `Sq(c) + Sq(s) == 1` for a bare rotation); nothing else does.
- **Square root.** A parameter `sqrt`. Lemmas that need it assume it is
  non-negative and squares back (`SqrtLike`).
- **Exceptions.** Python exceptions become `Outcomes.Result` failures:
  - `DivisionByZero`;
  - `MissingAttribute`, which includes attribute access on `None`;
  - `UnsupportedArgument`, the bare `raise Exception`;
  - `AssertionFailed`.

Modules:

| module | file | models |
|---|---|---|
| `Outcomes` | outcomes.dfy | `None` and exceptions |
| `Numerics` | numerics.dfy | radians, abstract trig and sqrt, min/max |
| `Geometry` | geometry.dfy | src/Murphy/geometric_objects.py |
| `Frame` | frame.dfy | src/Murphy/bedframe.py |
| `Links` | links.dfy | src/Murphy/link.py |
| `Descent` | descent.dfy | the bounded outer loop of `Murphy.assemble`, generic in the round and the stopping test |
| `Assembly` | assembly.dfy | src/Murphy/murphy.py |
| `Draft` | draft.dfy | src/murphy.py and murphy.py |

## Model

| member | source | states |
|---|---|---|
| Frame.LowerHeadIsPivot | src/Murphy/bedframe.py:29-31 | the lower head corner is the pose point (x, y) |
| Frame.ThicknessOffsets | src/Murphy/bedframe.py:15-40 | upper foot − lower foot and upper head − lower head are both t·(−sin, cos) |
| Frame.Parallelogram | src/Murphy/bedframe.py:15-40 | lower foot − lower head and upper foot − upper head are both l·(cos, sin), so the corners form a parallelogram |
| Frame.LeftEdge | src/Murphy/bedframe.py:42-44 | left_edge is at most every corner x and equals one of them |
| Frame.RightEdge | src/Murphy/bedframe.py:46-48 | right_edge is at least every corner x and equals one of them |
| Frame.Top | src/Murphy/bedframe.py:50-52 | top is at least every corner y and equals one of them |
| Frame.Bottom | src/Murphy/bedframe.py:54-56 | bottom is at most every corner y and equals one of them |
| Frame.ExtentsContainCorners | src/Murphy/bedframe.py:42-56 | left ≤ right, bottom ≤ top, and every corner lies inside the box |
| Frame.DeployedExtents | src/Murphy/bedframe.py:15-56 | at cos = 1, sin = 0 with l, t ≥ 0 the extents are exactly [x, x+l] × [y, y+t] |
| Links.DistalOffset | src/Murphy/link.py:28-33 | distal − pivot = length·(cos, sin); for a true angle its squared norm is length² |
| Links.EdgesMirror | src/Murphy/link.py:35-48 | the edges are the centreline shifted by ±(w/2)(−sin, cos); corresponding ends average to the pivot and the distal point; both edges are parallel to the rod |
| Links.ExtentsBound | src/Murphy/link.py:50-56 | for width ≥ 0 the box is ordered, contains pivot and distal, right − left = \|X − x\| + width and top − bottom = \|Y − y\| + width |
| Links.CoGOnRod | src/Murphy/link.py:79-81 | the centre of gravity is half a length along the rod from the pivot |
| Links.FloorOpening | src/Murphy/link.py:58-77 | the maximum of the three candidates: at least each of them (an untriggered one counts as 0) and equal to one of them; 0 when no case applies |
| Links.FloorRootArgumentsPositive | src/Murphy/link.py:65-72 | in the guarded branches r² − y² and r² − Y² are strictly positive |
| Links.CrossingBetweenEnds | src/Murphy/link.py:73-74 | when y·Y < 0, Y − y = length·sin ≠ 0, and the centreline's floor intercept lies between x and X |
| Links.RoomAttachment | src/Murphy/link.py:16-25 | fails with a division by zero exactly when the attachment x is 0 |
| Links.RoomAttachmentDistance | src/Murphy/link.py:16-25 | the room attachment is as far from the bedframe pose point as the attachment is from the bedframe origin |
| Links.RoomAttachmentRoundTrip | src/Murphy/link.py:16-25 | for attachment x > 0, rotating the room attachment back by the bedframe angle recovers the local attachment |
| Links.IkeaError | src/Murphy/link.py:83-89 | fails exactly when the attachment x is 0; otherwise ≥ 0, and 0 exactly when distal equals the room attachment |
| Geometry.AddThenSub | src/Murphy/geometric_objects.py:27-35 | (p + q) − q = p |
| Geometry.SubThenAdd | src/Murphy/geometric_objects.py:27-35 | (p − q) + q = p |
| Geometry.PointObject.AddAssign | src/Murphy/geometric_objects.py:42-45 | `+=` mutates the receiver to p + q and returns the same object |
| Geometry.PointObject.SubAssign | src/Murphy/geometric_objects.py:37-40 | `-=` mutates the receiver to p − q and returns the same object |
| Geometry.DistanceSymmetric | src/Murphy/geometric_objects.py:14-15 | point distance is symmetric |
| Geometry.DistanceToSelf | src/Murphy/geometric_objects.py:14-15 | a point is at distance 0 from itself |
| Geometry.DistanceSquared | src/Murphy/geometric_objects.py:14-15 | the distance is ≥ 0 and its square is dx² + dy² |
| Geometry.LineNumeratorIsCross | src/Murphy/geometric_objects.py:22 | the point-to-line numerator is the absolute cross product (b − a) × (p − a) |
| Geometry.LineNumeratorProperties | src/Murphy/geometric_objects.py:22 | the numerator is 0 at either endpoint and unchanged when the endpoints are swapped |
| Geometry.LineDenominatorZero | src/Murphy/geometric_objects.py:23 | the denominator is ≥ 0, and 0 exactly when the endpoints coincide |
| Geometry.DistanceToLine | src/Murphy/geometric_objects.py:17-25 | with p0/p1 read, fails with a division by zero exactly when the denominator is 0 |
| Geometry.Distance | src/Murphy/geometric_objects.py:6-12 | an operand that is neither a point nor a segment raises; a point operand gives the point distance |
| Geometry.DistanceAsWrittenRejectsSegments | src/Murphy/geometric_objects.py:17-20 | as written, any segment operand fails with a missing attribute |
| Geometry.DistanceToSegment | src/Murphy/geometric_objects.py:17-25 | with p0/p1 read, a proper segment gives a defined value v ≥ 0 with v·length = \|(p1 − p0) × (p − p0)\|, the distance to the segment's line; v is 0 exactly on that line, so at both endpoints |
| Geometry.SegmentDistanceToPointAsWritten | src/Murphy/geometric_objects.py:68-69 | as written, `distance_to_point` fails with a missing attribute for every segment and point |
| Geometry.SegmentDistanceToPoint | src/Murphy/geometric_objects.py:68-69 | with p0/p1 read, `distance_to_point` divides by zero exactly when the denominator is 0 |
| Geometry.SegmentDistanceToPointProperties | src/Murphy/geometric_objects.py:68-69 | with p0/p1 read, it fails exactly for a degenerate segment; otherwise its value v ≥ 0 satisfies v·length = \|(p1 − p0) × (p − p0)\| and is 0 exactly on the segment's line |
| Geometry.SegmentDistanceExample | src/Murphy/geometric_objects.py:68-69 | for the segment (1,0)–(1,1) and the origin, the corrected value is 1.0 and the as-written call fails with a missing attribute |
| Geometry.MakeSegment | src/Murphy/geometric_objects.py:58-62 | the stored endpoints are the two given points, in an order that is not specified |
| Geometry.LengthSymmetric | src/Murphy/geometric_objects.py:64-66 | a segment's length does not depend on its endpoint order |
| Geometry.Translate | src/Murphy/geometric_objects.py:71-74 | translating a segment translates both endpoints |
| Geometry.TranslateBack | src/Murphy/geometric_objects.py:76-79 | subtracting a point moves both endpoints back |
| Geometry.TranslatePreservesLength | src/Murphy/geometric_objects.py:64-79 | translation in either direction preserves length |
| Geometry.TranslateRoundTrip | src/Murphy/geometric_objects.py:71-79 | translating by q and then back by q restores the endpoints |
| Assembly.Shift | src/Murphy/murphy.py:35-40 | `self.<variable> += delta` moves that variable by delta; every other variable, the whole design and C's pivot are unchanged |
| Assembly.Sync | src/Murphy/murphy.py:36 | C's pivot lands on B's distal end; no variable and nothing in the design changes |
| Assembly.TotalError | src/Murphy/murphy.py:12-15 | defined exactly when every attachment x is nonzero and C is present; the sum of the A, B and C errors; ≥ 0; 0 exactly when all three links reach their attachments |
| Assembly.SecondTrial | src/Murphy/murphy.py:34-37 | the second trial (−1 after +0.5) measures the bed at v − 0.5 |
| Assembly.StepRule | src/Murphy/murphy.py:34-40 | with learning_rate = −0.1 (line 3), the net change of the variable is learning_rate·(e(v+0.5) − e(v−0.5)); it decreases when e(+) > e(−) and increases when e(+) < e(−) |
| Assembly.StepFrame | src/Murphy/murphy.py:32-40 | a step changes only its own variable and C's pivot; C stays on B's distal end, except after B's step, where it sits at B's second trial position |
| Assembly.StepFails | src/Murphy/murphy.py:32-40 | a step fails when the error cannot be evaluated |
| Assembly.SweepOutcome | src/Murphy/murphy.py:32-40 | a sweep over variables succeeds exactly on assemblable beds and keeps the design |
| Assembly.RoundOutcome | src/Murphy/murphy.py:32-40 | a round (A, B, C angles, then x, y) succeeds exactly on assemblable beds, keeps the design, and ends with C on B's distal end |
| Assembly.IterateOutcome | src/Murphy/murphy.py:31-40 | any positive number of rounds succeeds exactly on assemblable beds, keeps the design, and keeps C on B |
| Descent.Run | src/Murphy/murphy.py:31-43 | at most `budget` rounds; the result is the state after that many rounds; every earlier round succeeded and failed the test; it stopped on a failure, a passed test or an exhausted budget |
| Assembly.Assemble | src/Murphy/murphy.py:25-45 | at most 10000 rounds; every earlier round succeeded and none converged; on success the error is below 0.125 or the budget is spent; fails exactly on non-assemblable beds |
| Draft.RadLandmarks | murphy.py:2-5 | rad(0) = 0 and rad(180) = 3.141592653 |
| Draft.RadLinear | murphy.py:4-5 | rad(a + b) = rad(a) + rad(b) and rad(k·a) = k·rad(a) |
| Draft.RadIncreasing | murphy.py:4-5 | a < b exactly when rad(a) < rad(b) |
| Draft.RadBelowRadians | murphy.py:2-5 | the hand-written pi makes rad fall short of `math.radians` for every positive angle |
| Draft.NewBedframe | murphy.py:36-46 | the constructor stores t, l, h and d and starts at x = y = 0, angle 0 |
| Draft.NewBedframeIgnoresAngle | src/murphy.py:85-95 | the angle argument makes no difference to the new bedframe |
| Draft.CornerOffsets | src/murphy.py:97-109 | foot.lower − pose = l·(cos, sin); foot.upper − foot.lower = t·(−sin, cos); head.rear − pose = h·(−sin, cos); head.front − head.rear = d·(cos, sin) |
| Draft.PillowClosedForm | src/murphy.py:104-116 | pillow = pose + d·(cos, sin) + t·(−sin, cos), which does not depend on the headboard height |
| Draft.CoG | src/murphy.py:118-123 | the centre of gravity is the centre of the l × t slab: pose + (l/2)·(cos, sin) + (t/2)·(−sin, cos) |
| Draft.CoGOnDiagonals | src/murphy.py:118-123 | the centre of gravity bisects both slab diagonals: pose to foot.upper, and foot.lower to pose + t·(−sin, cos) |
| Draft.ClosedProfile | src/murphy.py:125-133 | pillow + (l − d)·(cos, sin) is exactly foot.upper |
| Draft.Verify | src/murphy.py:125-133 | with exact equality in place of rounding, `verify` never fails |
| Draft.RodMatchesLink | src/murphy.py:49-74 | the draft rod's distal point and its edge0/edge1 equal those of the later link; the edges mirror each other about the rod |
| Draft.NewPlan | src/murphy.py:8-26 | a new plan keeps its parts, goals and kind; it starts with status False and score None |
| Draft.NewPlanDefaultKind | src/murphy.py:8 | a plan made without a kind is a "Beta" bed |
| Draft.ResolvePositions | src/murphy.py:28-31 | status becomes True and nothing else changes |
| Draft.ResolveIdempotent | murphy.py:28-31 | resolving ignores the angle, and resolving twice is the same as resolving once |

## Left out

- Plotting and the `__main__` demos are not modelled: they are display and side effects.
  - This covers `Murphy.plot`, `Link.plot`, `Bedframe.plot`, the `plot_here` branch and the closing `print` of `assemble`.
  - The closing `print` reports the loop index, which is one less than the `rounds` that `Assemble` returns.
- Floating point is replaced by exact reals. `math.cos`/`sin` are abstract functions, and `**0.5` is an abstract `sqrt`.
- `Draft.Verify`: `round(…, 3)` is replaced by exact equality, so the model says nothing about rounding.
- `Links.RoomAttachment`: `atan(ay/ax)` followed by cos/sin of θ + φ is rewritten through the angle-addition identities.
  - For ax > 0 the result is the pose point plus the attachment rotated by θ.
  - For ax < 0, `atan`'s principal branch puts the result on the other side of the pose point.
  - For ax = 0 it divides by zero.
  - No quadrant behaviour beyond that is modelled.
- The attachment is always present: the constructor reads `attachment[0]` unconditionally. The zero-error `else` branch of `Link.ikea_error` and the `None` branch of `room_attachment` are therefore unreachable and are not modelled.
- Each link's `bedframe` is taken to be the assembly's own bedframe (the Murphy's `bedframe` field). The source would allow them to differ.
- Whether `assemble` converges, and which pose it reaches, is not modelled. This is numeric search with no guarantee. Only the step rule, the order of variables and the loop bound are stated.
- The `threshold` class attribute (0.001) is unused by the source. The stop test uses the literal 0.125.
- The `exec` string dispatch of `assemble` is replaced by the enumeration `Assembly.Var`.
- `Murphy.ikea_error` with C = None raises on attribute access. It is modelled as a `MissingAttribute` failure. `plt` is not imported in src/Murphy/murphy.py, which only matters for plotting.
- `LineSegment.__init__` is left partly unmodelled.
  - It builds the segment through a `set`, so endpoint order is unspecified; the model takes the order as a parameter.
  - It compares points by identity, so two equal-valued points are kept as two endpoints.
  - Passing the same object twice crashes. The model cannot express object identity, so that crash is not modelled.
- `LineSegment.__iadd__`/`__isub__` return `None`, which rebinds the caller's variable to `None`. They are not modelled.
- `Point.is_between_lines` and the `floor_opening`, `score` and `render` stubs of the drafts are not modelled. They have no body.
- The commented-out code in src/Murphy/bedframe.py is not modelled.
- The nested `foot` defined inside `Bedframe.__init__` in murphy.py is never bound, so it is not modelled.
- `rad` in src/murphy.py uses an undefined `pi` and is never called; only the top-level draft's `rad` is modelled.
- The draft `Murphy` keeps its design goals (`desired_deployed_height`, `desired_stowed_height`) only as stored values. The `print` in `resolve_positions` is not modelled.
- Links.IkeaError: the error is only the squared distance to the room attachment, as the code computes it; the docstring calls it the distance. No centre-of-gravity bias term is added.
- A link without an attachment would score 0 through the `else` branch of src/Murphy/link.py:88. That branch is dead, because the constructor crashes first. No penalty is modelled for attachment points outside the bedframe, because the code never checks where the attachment lies.
- Draft.ClosedProfile: the closing check starts from `pillow`, as `verify` does, not from `head.front`.
- `Assembly.Murphy` allows only C to be missing. The source constructor (src/Murphy/murphy.py:5-10) also accepts `None` for A or B. The first trial step would then raise on attribute access; the model does not represent that case.

## Findings

| source | as written | input that shows it | evidently intended | confidence | as-written member | corrected member |
|---|---|---|---|---|---|---|
| src/Murphy/geometric_objects.py:17-20 | `_distance_to_line` reads `line.point1` and `line.point2` | any `LineSegment`: the constructor (lines 58-62) sets only `p0` and `p1`, so `Point(0,0).distance(LineSegment(Point(1,0), Point(1,1)))` raises AttributeError | read `p0` and `p1`, giving the distance to the line through them (1.0 in the example) | not executed | Geometry.DistanceAsWrittenRejectsSegments | Geometry.DistanceToSegment |
| src/Murphy/geometric_objects.py:68-69 | `LineSegment.distance_to_point` calls `point.distance(self)`, which reaches `line.point1` at line 19 | `LineSegment(Point(1,0), Point(1,1)).distance_to_point(Point(0,0))` raises AttributeError | the distance from the point to the segment's line (1.0 in the example, proved as Geometry.SegmentDistanceExample) | not executed | Geometry.SegmentDistanceToPointAsWritten | Geometry.SegmentDistanceToPointProperties |

=== FILE: assembly.dfy ===
/** The assembly solver of src/Murphy/murphy.py: at a fixed bedframe angle it
    nudges five free variables, one at a time, to drive the summed link
    assembly error toward zero. */
module Assembly {
  import opened Numerics
  import opened Outcomes
  import opened Geometry
  import Frame
  import opened Links
  import Descent

  /** `Murphy.learning_rate` */
  const LearningRate: real := -0.1
  /** The error below which `assemble` stops early. */
  const StopBelow: real := 0.125
  /** The round budget of `assemble`. */
  const MaxRounds: nat := 10000

  /** One bed at one angle: the bedframe and links A, B and C. C may be
      missing (`None`). Every link's attachment is read against this
      bedframe. */
  datatype Murphy = Murphy(bedframe: Frame.Bedframe, a: Link, b: Link, c: Option<Link>)

  /** The free variables `assemble` adjusts, in place of the names it
      formats into `exec` strings. */
  datatype Var = AAngle | BAngle | CAngle | FrameX | FrameY

  /** The order in which each round visits the variables. */
  const Order: seq<Var> := [AAngle, BAngle, CAngle, FrameX, FrameY]

  /** The variable exists in m: only C's angle can be missing. */
  predicate Has(m: Murphy, v: Var) {
    v == CAngle ==> m.c.Some?
  }

  /** The current value of a variable. */
  function Get(m: Murphy, v: Var): real
    requires Has(m, v)
  {
    match v
    case AAngle => m.a.angle
    case BAngle => m.b.angle
    case CAngle => m.c.value.angle
    case FrameX => m.bedframe.x
    case FrameY => m.bedframe.y
  }

  /** `self.<variable> += delta`: the variable moved by delta, all else kept. */
  function Shift(m: Murphy, v: Var, delta: real): (r: Murphy)
    requires Has(m, v)
    ensures Has(r, v) && Get(r, v) == Get(m, v) + delta
    ensures forall w :: w != v && Has(m, w) ==> Has(r, w) && Get(r, w) == Get(m, w)
    ensures SameDesign(m, r)
    ensures m.c.Some? ==> r.c.Some? && Links.Pivot(r.c.value) == Links.Pivot(m.c.value)
  {
    match v
    case AAngle => m.(a := m.a.(angle := m.a.angle + delta))
    case BAngle => m.(b := m.b.(angle := m.b.angle + delta))
    case CAngle => m.(c := Some(m.c.value.(angle := m.c.value.angle + delta)))
    case FrameX => m.(bedframe := m.bedframe.(x := m.bedframe.x + delta))
    case FrameY => m.(bedframe := m.bedframe.(y := m.bedframe.y + delta))
  }

  /** C's pivot sits on B's distal end. */
  predicate Synced(m: Murphy, trig: Trig) {
    m.c.Some? && Links.Pivot(m.c.value) == Distal(m.b, trig)
  }

  /** Everything but the five free variables and C's pivot, which the
      solver moves; those are set to zero. */
  function Strip(m: Murphy): Murphy {
    Murphy(m.bedframe.(x := 0.0, y := 0.0), m.a.(angle := 0.0), m.b.(angle := 0.0),
           if m.c.None? then None else Some(m.c.value.(x := 0.0, y := 0.0, angle := 0.0)))
  }

  /** n has the same design as m: only free variables and C's pivot differ. */
  predicate SameDesign(m: Murphy, n: Murphy) {
    Strip(m) == Strip(n)
  }

  /** `self.C.x, self.C.y = self.B.distal`: C's pivot moved onto B's distal
      end; nothing else changes. */
  function Sync(m: Murphy, trig: Trig): (r: Murphy)
    requires m.c.Some?
    ensures Synced(r, trig)
    ensures SameDesign(m, r)
    ensures forall v :: Has(r, v) && Get(r, v) == Get(m, v)
  {
    var d := Distal(m.b, trig);
    m.(c := Some(m.c.value.(x := d.x, y := d.y)))
  }

  /** Every attachment can be placed in the room and C is present: the
      condition under which `Murphy.ikea_error` can be evaluated. */
  predicate Assemblable(m: Murphy) {
    && m.a.attachment.x != 0.0
    && m.b.attachment.x != 0.0
    && m.c.Some? && m.c.value.attachment.x != 0.0
  }

  /** The link's distal end meets its room attachment. */
  predicate Attached(k: Link, frame: Frame.Bedframe, trig: Trig) {
    RoomAttachment(k, frame, trig) == Success(Distal(k, trig))
  }

  /** `Murphy.ikea_error`: the sum of the A, B and C link errors, evaluated in
      that order. It is defined exactly for assemblable beds, never negative,
      and zero exactly when all three links reach their attachments. */
  function TotalError(m: Murphy, trig: Trig): (r: Result<real>)
    ensures r.Success? <==> Assemblable(m)
    ensures r.Success? ==> r.value == IkeaError(m.a, m.bedframe, trig).value
                                      + IkeaError(m.b, m.bedframe, trig).value
                                      + IkeaError(m.c.value, m.bedframe, trig).value
    ensures r.Success? ==> 0.0 <= r.value
    ensures r.Success? ==> (r.value == 0.0 <==>
              && Attached(m.a, m.bedframe, trig)
              && Attached(m.b, m.bedframe, trig)
              && Attached(m.c.value, m.bedframe, trig))
  {
    var ea :- IkeaError(m.a, m.bedframe, trig);
    var eb :- IkeaError(m.b, m.bedframe, trig);
    if m.c.None? then Failure(MissingAttribute)
    else
      var ec :- IkeaError(m.c.value, m.bedframe, trig);
      Success(0.0 + ea + eb + ec)
  }

  /** The assembly the solver measures after moving v by delta: C is
      re-pinned to B before every measurement. */
  function Trial(m: Murphy, v: Var, delta: real, trig: Trig): Murphy
    requires m.c.Some?
  {
    Sync(Shift(m, v, delta), trig)
  }

  /** One variable's turn in a round of `assemble`: step +0.5 and measure,
      step -1 and measure, then add learning_rate * (difference) + 0.5. */
  function Step(m: Murphy, v: Var, trig: Trig): Result<Murphy> {
    if m.c.None? then Failure(MissingAttribute)
    else
      var up := Trial(m, v, 0.5, trig);
      var e0 :- TotalError(up, trig);
      var down := Trial(up, v, -1.0, trig);
      var e1 :- TotalError(down, trig);
      Success(Shift(down, v, Mul(LearningRate, e0 - e1) + 0.5))
  }

  /** Re-pinning C before moving a variable makes no difference once C is
      re-pinned again. */
  lemma SyncShiftSync(m: Murphy, v: Var, delta: real, trig: Trig)
    requires m.c.Some?
    ensures Trial(Sync(m, trig), v, delta, trig) == Trial(m, v, delta, trig)
  {
  }

  /** The second trial measures the variable at its start value - 0.5. */
  lemma SecondTrial(m: Murphy, v: Var, trig: Trig)
    requires m.c.Some?
    ensures Trial(Trial(m, v, 0.5, trig), v, -1.0, trig) == Trial(m, v, -0.5, trig)
  {
    var up := Shift(m, v, 0.5);
    SyncShiftSync(up, v, -1.0, trig);
    assert Shift(up, v, -1.0) == Shift(m, v, -0.5);
  }

  /** The step rule: the +0.5 centring cancels the net -0.5 of the two
      trials, so the variable moves by exactly
      learning_rate * (e(v + 0.5) - e(v - 0.5)); with a negative learning
      rate it moves away from the side with the larger error. */
  lemma StepRule(m: Murphy, v: Var, trig: Trig)
    requires Assemblable(m)
    ensures Step(m, v, trig).Success?
    ensures var ePlus := TotalError(Trial(m, v, 0.5, trig), trig).value;
            var eMinus := TotalError(Trial(m, v, -0.5, trig), trig).value;
            var after := Get(Step(m, v, trig).value, v);
            && after == Get(m, v) + Mul(LearningRate, ePlus - eMinus)
            && (ePlus > eMinus ==> after < Get(m, v))
            && (ePlus < eMinus ==> after > Get(m, v))
  {
    SecondTrial(m, v, trig);
    var ePlus := TotalError(Trial(m, v, 0.5, trig), trig).value;
    var eMinus := TotalError(Trial(m, v, -0.5, trig), trig).value;
    if ePlus > eMinus {
      MulPositive(0.1, ePlus - eMinus);
    } else if ePlus < eMinus {
      MulPositive(0.1, eMinus - ePlus);
    }
  }

  /** A step changes only its own variable (and C's pivot). Afterwards C is
      pinned to B's distal end, except after B's own step, which leaves C
      where B's distal end was at B's second trial angle. */
  lemma StepFrame(m: Murphy, v: Var, trig: Trig)
    requires Assemblable(m)
    ensures Step(m, v, trig).Success?
    ensures var r := Step(m, v, trig).value;
            && SameDesign(m, r)
            && (forall w :: w != v ==> Get(r, w) == Get(m, w))
            && (v != BAngle ==> Synced(r, trig))
            && (v == BAngle ==> Links.Pivot(r.c.value) == Distal(m.b.(angle := m.b.angle - 0.5), trig))
  {
    SecondTrial(m, v, trig);
  }

  /** Steps through the variables vs in order, stopping at the first failure. */
  function Sweep(m: Murphy, vs: seq<Var>, trig: Trig): Result<Murphy>
    decreases |vs|
  {
    if |vs| == 0 then Success(m)
    else
      var n :- Step(m, vs[0], trig);
      Sweep(n, vs[1..], trig)
  }

  /** One round of `assemble`: A's angle, B's angle, C's angle, then the
      bedframe's x and y. */
  function Round(m: Murphy, trig: Trig): Result<Murphy> {
    Sweep(m, Order, trig)
  }

  /** A non-empty sweep succeeds exactly on assemblable beds, keeps the
      design, and ends with C pinned to B unless its last step was B's. */
  lemma {:induction false} SweepOutcome(m: Murphy, vs: seq<Var>, trig: Trig)
    requires |vs| > 0
    ensures Sweep(m, vs, trig).Success? <==> Assemblable(m)
    ensures Sweep(m, vs, trig).Success? ==> SameDesign(m, Sweep(m, vs, trig).value)
    ensures Sweep(m, vs, trig).Success? && vs[|vs| - 1] != BAngle ==> Synced(Sweep(m, vs, trig).value, trig)
    decreases |vs|
  {
    if Assemblable(m) {
      StepFrame(m, vs[0], trig);
      var n := Step(m, vs[0], trig).value;
      assert Assemblable(n);
      if |vs| > 1 {
        SweepOutcome(n, vs[1..], trig);
        assert vs[1..][|vs[1..]| - 1] == vs[|vs| - 1];
      }
    } else {
      StepFails(m, vs[0], trig);
    }
  }

  /** A step fails whenever the bed is not assemblable. */
  lemma StepFails(m: Murphy, v: Var, trig: Trig)
    requires !Assemblable(m)
    ensures Step(m, v, trig).Failure?
  {
    if m.c.Some? {
      assert !Assemblable(Trial(m, v, 0.5, trig));
    }
  }

  /** A round succeeds exactly on assemblable beds, keeps the design, and
      leaves C pinned to B's distal end. */
  lemma RoundOutcome(m: Murphy, trig: Trig)
    ensures Round(m, trig).Success? <==> Assemblable(m)
    ensures Round(m, trig).Success? ==> SameDesign(m, Round(m, trig).value) && Synced(Round(m, trig).value, trig)
  {
    SweepOutcome(m, Order, trig);
  }

  /** The bed after n rounds, with no early stop. */
  function Iterate(m: Murphy, n: nat, trig: Trig): Result<Murphy> {
    Descent.Iterate(p => Round(p, trig), m, n)
  }

  /** The total error is defined and below the stopping threshold. */
  predicate Converged(m: Murphy, trig: Trig) {
    var e := TotalError(m, trig);
    e.Success? && e.value < StopBelow
  }

  /** The bed has converged after exactly n rounds. */
  predicate ConvergedAfter(m: Murphy, n: nat, trig: Trig) {
    Descent.StopsAfter(p => Round(p, trig), p => Converged(p, trig), m, n)
  }

  /** Any positive number of rounds succeeds exactly on assemblable beds,
      keeps the design, and leaves C pinned to B. */
  lemma {:induction false} IterateOutcome(m: Murphy, n: nat, trig: Trig)
    requires n > 0
    ensures Iterate(m, n, trig).Success? <==> Assemblable(m)
    ensures Iterate(m, n, trig).Success? ==> SameDesign(m, Iterate(m, n, trig).value) && Synced(Iterate(m, n, trig).value, trig)
  {
    if n == 1 {
      RoundOutcome(m, trig);
    } else {
      IterateOutcome(m, n - 1, trig);
      if Assemblable(m) {
        var p := Iterate(m, n - 1, trig).value;
        assert Assemblable(p);
        RoundOutcome(p, trig);
      }
    }
  }

  /** `Murphy.assemble`: rounds until the total error drops below 0.125, at
      most 10000 of them. Returns the bed and the number of rounds run. The
      result is the bed after that many rounds; no earlier round had
      converged; it stopped because the error converged or the budget ran
      out; it fails exactly when the bed is not assemblable; and it keeps
      the design with C pinned to B. */
  method Assemble(m: Murphy, trig: Trig) returns (r: Result<Murphy>, rounds: nat)
    ensures 1 <= rounds <= MaxRounds
    ensures r == Iterate(m, rounds, trig)
    ensures forall k :: 1 <= k < rounds ==> Iterate(m, k, trig).Success?
    ensures forall k :: 1 <= k < rounds ==> !ConvergedAfter(m, k, trig)
    ensures r.Success? ==> Converged(r.value, trig) || rounds == MaxRounds
    ensures r.Success? <==> Assemblable(m)
    ensures r.Success? ==> SameDesign(m, r.value) && Synced(r.value, trig)
  {
    r, rounds := Descent.Run(m, p => Round(p, trig), p => Converged(p, trig), MaxRounds);
    IterateOutcome(m, rounds, trig);
  }
}

=== FILE: descent.dfy ===
/** The bounded outer loop of `Murphy.assemble`, apart from the mechanism:
    run a round after another until a stopping test passes, a round fails,
    or the round budget is spent. */
module Descent {
  import opened Outcomes

  /** The state after n rounds, with no early stop. */
  function Iterate<S>(round: S -> Result<S>, s: S, n: nat): Result<S> {
    if n == 0 then Success(s)
    else
      var p :- Iterate(round, s, n - 1);
      round(p)
  }

  /** The stopping test passes after exactly n rounds. */
  predicate StopsAfter<S>(round: S -> Result<S>, done: S -> bool, s: S, n: nat) {
    var r := Iterate(round, s, n);
    r.Success? && done(r.value)
  }

  /** One more round continues from where n rounds left off. */
  lemma IterateNext<S>(round: S -> Result<S>, s: S, n: nat)
    requires Iterate(round, s, n).Success?
    ensures Iterate(round, s, n + 1) == round(Iterate(round, s, n).value)
  {
  }

  /** `for i in range(budget): <round>; if <done>: break`. Returns the final
      state and the number of rounds run: the state after that many rounds,
      reached with every earlier round succeeding and failing the test, and
      stopped because a round failed, the test passed, or the budget ran out. */
  method Run<S>(s: S, round: S -> Result<S>, done: S -> bool, budget: nat) returns (r: Result<S>, rounds: nat)
    requires 0 < budget
    ensures 1 <= rounds <= budget
    ensures r == Iterate(round, s, rounds)
    ensures forall k :: 1 <= k < rounds ==> Iterate(round, s, k).Success?
    ensures forall k :: 1 <= k < rounds ==> !StopsAfter(round, done, s, k)
    ensures r.Success? ==> done(r.value) || rounds == budget
  {
    r := Success(s);
    rounds := 0;
    while rounds < budget
      invariant rounds <= budget
      invariant r.Success? && r == Iterate(round, s, rounds)
      invariant forall k :: 1 <= k <= rounds ==> !StopsAfter(round, done, s, k)
      invariant forall k :: 1 <= k <= rounds ==> Iterate(round, s, k).Success?
    {
      IterateNext(round, s, rounds);
      r := round(r.value);
      rounds := rounds + 1;
      if r.Failure? || done(r.value) {
        return;
      }
    }
  }
}

=== FILE: draft.dfy ===
/** The earlier drafts of the bed, src/murphy.py and the top-level
    murphy.py: a six-point bedframe profile with a headboard and a pillow
    step, a bare support rod, the planning record with its status flag, and
    the draft's own degree-to-radian conversion. */
module Draft {
  import opened Numerics
  import opened Outcomes
  import opened Geometry
  import Links

  /** The value of pi the top-level draft writes out by hand. */
  const DraftPi: real := 3.141592653

  /** `rad` of the top-level draft. */
  function Rad(degrees: real): real {
    DraftPi * degrees / 180.0
  }

  /** A zero angle is zero radians and a half turn is the draft's pi. */
  lemma RadLandmarks()
    ensures Rad(0.0) == 0.0
    ensures Rad(180.0) == DraftPi
  {
  }

  /** The conversion is linear. */
  lemma RadLinear(a: real, b: real, k: real)
    ensures Rad(a + b) == Rad(a) + Rad(b)
    ensures Rad(Mul(k, a)) == Mul(k, Rad(a))
  {
  }

  /** The conversion is strictly increasing. */
  lemma RadIncreasing(a: real, b: real)
    ensures a < b <==> Rad(a) < Rad(b)
  {
  }

  /** The hand-written pi is short of `math.pi`, so every positive angle
      converts to slightly less than `math.radians` gives. */
  lemma RadBelowRadians(degrees: real)
    requires 0.0 < degrees
    ensures Rad(degrees) < Radians(degrees)
  {
  }

  /** Design: thickness `t`, length `l`, headboard height `h` and depth
      `d`; pose: (x, y) and angle in degrees, 0 deployed and 90 stowed. */
  datatype Bedframe = Bedframe(t: real, l: real, h: real, d: real, x: real, y: real, angle: real)

  /** `Bedframe.__init__`: stores the design and starts at the origin,
      deployed. The angle argument is accepted and dropped. */
  function NewBedframe(t: real, l: real, h: real, d: real, angle: real): (b: Bedframe)
    ensures b.t == t && b.l == l && b.h == h && b.d == d
    ensures b.x == 0.0 && b.y == 0.0 && b.angle == 0.0
  {
    Bedframe(t, l, h, d, 0.0, 0.0, 0.0)
  }

  /** Whatever angle is asked for, the new bedframe is the same. */
  lemma NewBedframeIgnoresAngle(t: real, l: real, h: real, d: real, a1: real, a2: real)
    ensures NewBedframe(t, l, h, d, a1) == NewBedframe(t, l, h, d, a2)
  {
  }

  function Pose(b: Bedframe): Point {
    Point(b.x, b.y)
  }

  /** (cos, sin) of the bedframe angle. */
  function Heading(b: Bedframe, trig: Trig): Point {
    Point(Cos(trig, b.angle), Sin(trig, b.angle))
  }

  /** The heading turned a quarter turn counter-clockwise, (-sin, cos). */
  function Normal(b: Bedframe, trig: Trig): Point {
    Point(-Sin(trig, b.angle), Cos(trig, b.angle))
  }

  /** `Bedframe.foot`: (lower, upper) corners at the foot end. */
  function Foot(b: Bedframe, trig: Trig): (Point, Point) {
    var c, s := Cos(trig, b.angle), Sin(trig, b.angle);
    var lower := Point(b.x + Mul(b.l, c), b.y + Mul(b.l, s));
    (lower, Point(lower.x - Mul(b.t, s), lower.y + Mul(b.t, c)))
  }

  /** `Bedframe.head`: (rear, front) corners at the top of the headboard. */
  function Head(b: Bedframe, trig: Trig): (Point, Point) {
    var c, s := Cos(trig, b.angle), Sin(trig, b.angle);
    var rear := Point(b.x - Mul(b.h, s), b.y + Mul(b.h, c));
    (rear, Point(rear.x + Mul(b.d, c), rear.y + Mul(b.d, s)))
  }

  /** `Bedframe.pillow`: the step down from the headboard front to the
      mattress surface. */
  function Pillow(b: Bedframe, trig: Trig): Point {
    var c, s := Cos(trig, b.angle), Sin(trig, b.angle);
    var front := Head(b, trig).1;
    Point(front.x + Mul(b.h - b.t, s), front.y - Mul(b.h - b.t, c))
  }

  /** `Bedframe.CoG`, the centre of gravity of the main slab: half the
      length along the heading and half the thickness along the normal from
      the pose point, which is the centre of the l by t slab. */
  function CoG(b: Bedframe, trig: Trig): (r: Point)
    ensures r == Add(Add(Pose(b), Scale(b.l / 2.0, Heading(b, trig))), Scale(b.t / 2.0, Normal(b, trig)))
  {
    var c, s := Cos(trig, b.angle), Sin(trig, b.angle);
    assert Mul(b.l / 2.0, c) == Mul(b.l, c) / 2.0;
    assert Mul(b.l / 2.0, s) == Mul(b.l, s) / 2.0;
    assert Mul(b.t / 2.0, c) == Mul(b.t, c) / 2.0;
    assert Mul(b.t / 2.0, s) == Mul(b.t, s) / 2.0;
    Point((b.x + Foot(b, trig).1.x) / 2.0, (b.y + Foot(b, trig).1.y) / 2.0)
  }

  /** The centre of gravity bisects both diagonals of the slab: the one from
      the pose point to the upper foot and the one from the lower foot to the
      point `t` above the pose point. */
  lemma CoGOnDiagonals(b: Bedframe, trig: Trig)
    ensures CoG(b, trig) == Midpoint(Pose(b), Foot(b, trig).1)
    ensures CoG(b, trig) == Midpoint(Foot(b, trig).0, Add(Pose(b), Scale(b.t, Normal(b, trig))))
  {
  }

  /** The corner offsets: the foot is `l` along the heading, the upper foot
      `t` along the normal above it, the headboard rises `h` along the normal
      and its front lies `d` along the heading. */
  lemma CornerOffsets(b: Bedframe, trig: Trig)
    ensures Sub(Foot(b, trig).0, Pose(b)) == Scale(b.l, Heading(b, trig))
    ensures Sub(Foot(b, trig).1, Foot(b, trig).0) == Scale(b.t, Normal(b, trig))
    ensures Sub(Head(b, trig).0, Pose(b)) == Scale(b.h, Normal(b, trig))
    ensures Sub(Head(b, trig).1, Head(b, trig).0) == Scale(b.d, Heading(b, trig))
  {
  }

  /** The pillow sits `d` along the heading and `t` along the normal from
      the pose point, whatever the headboard height. */
  lemma PillowClosedForm(b: Bedframe, trig: Trig, h: real)
    ensures Pillow(b, trig) == Add(Add(Pose(b), Scale(b.d, Heading(b, trig))), Scale(b.t, Normal(b, trig)))
    ensures Pillow(b.(h := h), trig) == Pillow(b, trig)
  {
    var c, s := Cos(trig, b.angle), Sin(trig, b.angle);
    assert Mul(b.h - b.t, s) == Mul(b.h, s) - Mul(b.t, s);
    assert Mul(b.h - b.t, c) == Mul(b.h, c) - Mul(b.t, c);
    assert Mul(h - b.t, s) == Mul(h, s) - Mul(b.t, s);
    assert Mul(h - b.t, c) == Mul(h, c) - Mul(b.t, c);
  }

  /** The profile closes: going `l - d` along the heading from the pillow
      reaches the upper foot corner. */
  lemma ClosedProfile(b: Bedframe, trig: Trig)
    ensures Add(Pillow(b, trig), Scale(b.l - b.d, Heading(b, trig))) == Foot(b, trig).1
  {
    PillowClosedForm(b, trig, b.h);
    var c, s := Cos(trig, b.angle), Sin(trig, b.angle);
    assert Mul(b.l - b.d, c) == Mul(b.l, c) - Mul(b.d, c);
    assert Mul(b.l - b.d, s) == Mul(b.l, s) - Mul(b.d, s);
  }

  /** `Bedframe.verify`, with exact equality where the draft compares values
      rounded to three decimals: it never fails. */
  function Verify(b: Bedframe, trig: Trig): (r: Result<()>)
    ensures r.Success?
  {
    var c, s := Cos(trig, b.angle), Sin(trig, b.angle);
    var a := Pillow(b, trig).x + Mul(b.l - b.d, c);
    var bb := Pillow(b, trig).y + Mul(b.l - b.d, s);
    ClosedProfile(b, trig);
    if a != Foot(b, trig).1.x || bb != Foot(b, trig).1.y then Failure(AssertionFailed)
    else Success(())
  }

  /** The draft support link: a bare rod of some width pinned at (x, y). */
  datatype Rod = Rod(x: real, y: real, length: real, width: real, angle: real)

  /** `Link.distal` of the draft. */
  function Distal(k: Rod, trig: Trig): Point {
    Point(k.x + Mul(k.length, Cos(trig, k.angle)), k.y + Mul(k.length, Sin(trig, k.angle)))
  }

  /** `Link.edge0`: the side on the normal's side of the rod. */
  function Edge0(k: Rod, trig: Trig): Segment {
    var w, c, s := k.width / 2.0, Cos(trig, k.angle), Sin(trig, k.angle);
    var d := Distal(k, trig);
    Segment(Point(k.x - Mul(w, s), k.y + Mul(w, c)), Point(d.x - Mul(w, s), d.y + Mul(w, c)))
  }

  /** `Link.edge1`: the side opposite `edge0`. */
  function Edge1(k: Rod, trig: Trig): Segment {
    var w, c, s := k.width / 2.0, Cos(trig, k.angle), Sin(trig, k.angle);
    var d := Distal(k, trig);
    Segment(Point(k.x + Mul(w, s), k.y - Mul(w, c)), Point(d.x + Mul(w, s), d.y - Mul(w, c)))
  }

  /** The draft rod is the later link without colour and attachment: the
      same distal point and the same two edges, so the mirror facts proved
      for the later link hold here too. */
  lemma RodMatchesLink(k: Rod, color: string, attachment: Point, trig: Trig)
    ensures var link := Links.Link(k.x, k.y, k.length, k.width, k.angle, color, attachment);
            && Distal(k, trig) == Links.Distal(link, trig)
            && (Edge0(k, trig), Edge1(k, trig)) == Links.Edges(link, trig)
            && Midpoint(Edge0(k, trig).p0, Edge1(k, trig).p0) == Point(k.x, k.y)
            && Midpoint(Edge0(k, trig).p1, Edge1(k, trig).p1) == Distal(k, trig)
  {
    Links.EdgesMirror(Links.Link(k.x, k.y, k.length, k.width, k.angle, color, attachment), trig);
  }

  /** The planning record `Murphy` of both drafts: the parts, the design
      goals, the bed kind ("Alpha": links at the headboard, "Beta": at the
      foot), whether every position is resolved, and a score still to be
      computed. */
  datatype Plan = Plan(bedframe: Bedframe, a: Rod, b: Rod, c: Option<Rod>,
                       deployedHeight: real, stowedHeight: real, kind: string,
                       status: bool, score: Option<real>)

  /** The kind a `Murphy` gets when none is given. */
  const DefaultKind: string := "Beta"

  /** `Murphy.__init__`: stores the parts and goals, unresolved and unscored. */
  function NewPlan(bedframe: Bedframe, a: Rod, b: Rod, c: Option<Rod>,
                   deployedHeight: real, stowedHeight: real, kind: string := DefaultKind): (m: Plan)
    ensures !m.status && m.score == None
    ensures m.bedframe == bedframe && m.a == a && m.b == b && m.c == c
    ensures m.deployedHeight == deployedHeight && m.stowedHeight == stowedHeight && m.kind == kind
  {
    Plan(bedframe, a, b, c, deployedHeight, stowedHeight, kind, false, None)
  }

  /** `Murphy.resolve_positions`: a stub that only marks the positions as
      resolved. */
  function ResolvePositions(m: Plan, angle: real): (r: Plan)
    ensures r.status
    ensures r.bedframe == m.bedframe && r.a == m.a && r.b == m.b && r.c == m.c
    ensures r.deployedHeight == m.deployedHeight && r.stowedHeight == m.stowedHeight
    ensures r.kind == m.kind && r.score == m.score
  {
    m.(status := true)
  }

  /** A plan made without a kind is a "Beta" bed. */
  lemma NewPlanDefaultKind(bedframe: Bedframe, a: Rod, b: Rod, c: Option<Rod>, deployedHeight: real, stowedHeight: real)
    ensures NewPlan(bedframe, a, b, c, deployedHeight, stowedHeight).kind == "Beta"
  {
  }

  /** Resolving ignores the angle and a second resolve changes nothing. */
  lemma ResolveIdempotent(m: Plan, a1: real, a2: real)
    ensures ResolvePositions(m, a1) == ResolvePositions(m, a2)
    ensures ResolvePositions(ResolvePositions(m, a1), a2) == ResolvePositions(m, a1)
  {
  }
}

=== FILE: frame.dfy ===
/** The four-corner bedframe slab of src/Murphy/bedframe.py. The pose point
    (x, y) is the lower head corner; the slab extends `l` along the heading
    (cos, sin) of `angle` and `t` along its left normal (-sin, cos). */
module Frame {
  import opened Numerics
  import opened Geometry

  /** Pose (x, y, angle in degrees; 0 is deployed, 90 stowed), thickness `t`
      and length `l`. */
  datatype Bedframe = Bedframe(x: real, y: real, t: real, l: real, angle: real)

  /** (cos, sin) of the bedframe angle. */
  function Heading(b: Bedframe, trig: Trig): Point {
    Point(Cos(trig, b.angle), Sin(trig, b.angle))
  }

  /** The heading turned a quarter turn counter-clockwise, (-sin, cos). */
  function Normal(b: Bedframe, trig: Trig): Point {
    Point(-Sin(trig, b.angle), Cos(trig, b.angle))
  }

  function Pivot(b: Bedframe): Point {
    Point(b.x, b.y)
  }

  /** `Bedframe.lower_foot` */
  function LowerFoot(b: Bedframe, trig: Trig): Point {
    var c, s := Cos(trig, b.angle), Sin(trig, b.angle);
    Point(b.x + Mul(b.l, c), b.y + Mul(b.l, s))
  }

  /** `Bedframe.upper_foot` */
  function UpperFoot(b: Bedframe, trig: Trig): Point {
    var c, s := Cos(trig, b.angle), Sin(trig, b.angle);
    Point(b.x + Mul(b.l, c) - Mul(b.t, s), b.y + Mul(b.l, s) + Mul(b.t, c))
  }

  /** `Bedframe.lower_head` */
  function LowerHead(b: Bedframe): Point {
    Point(b.x, b.y)
  }

  /** `Bedframe.upper_head` */
  function UpperHead(b: Bedframe, trig: Trig): Point {
    var c, s := Cos(trig, b.angle), Sin(trig, b.angle);
    Point(b.x - Mul(b.t, s), b.y + Mul(b.t, c))
  }

  /** `Bedframe.left_edge`: the least corner x. */
  function LeftEdge(b: Bedframe, trig: Trig): (r: real)
    ensures IsMin4(r, LowerFoot(b, trig).x, LowerHead(b).x, UpperFoot(b, trig).x, UpperHead(b, trig).x)
  {
    Min4(LowerFoot(b, trig).x, LowerHead(b).x, UpperFoot(b, trig).x, UpperHead(b, trig).x)
  }

  /** `Bedframe.right_edge`: the greatest corner x. */
  function RightEdge(b: Bedframe, trig: Trig): (r: real)
    ensures IsMax4(r, LowerFoot(b, trig).x, LowerHead(b).x, UpperFoot(b, trig).x, UpperHead(b, trig).x)
  {
    Max4(LowerFoot(b, trig).x, LowerHead(b).x, UpperFoot(b, trig).x, UpperHead(b, trig).x)
  }

  /** `Bedframe.top`: the greatest corner y. */
  function Top(b: Bedframe, trig: Trig): (r: real)
    ensures IsMax4(r, LowerFoot(b, trig).y, LowerHead(b).y, UpperFoot(b, trig).y, UpperHead(b, trig).y)
  {
    Max4(LowerFoot(b, trig).y, LowerHead(b).y, UpperFoot(b, trig).y, UpperHead(b, trig).y)
  }

  /** `Bedframe.bottom`: the least corner y. */
  function Bottom(b: Bedframe, trig: Trig): (r: real)
    ensures IsMin4(r, LowerFoot(b, trig).y, LowerHead(b).y, UpperFoot(b, trig).y, UpperHead(b, trig).y)
  {
    Min4(LowerFoot(b, trig).y, LowerHead(b).y, UpperFoot(b, trig).y, UpperHead(b, trig).y)
  }

  /** The lower head corner is the pose point itself. */
  lemma LowerHeadIsPivot(b: Bedframe)
    ensures LowerHead(b) == Pivot(b)
  {
  }

  /** Both thickness edges are the same offset t * (-sin, cos). */
  lemma ThicknessOffsets(b: Bedframe, trig: Trig)
    ensures Sub(UpperFoot(b, trig), LowerFoot(b, trig)) == Scale(b.t, Normal(b, trig))
    ensures Sub(UpperHead(b, trig), LowerHead(b)) == Scale(b.t, Normal(b, trig))
  {
  }

  /** Both length edges are the same offset l * (cos, sin): the corners form
      a parallelogram. */
  lemma Parallelogram(b: Bedframe, trig: Trig)
    ensures Sub(LowerFoot(b, trig), LowerHead(b)) == Scale(b.l, Heading(b, trig))
    ensures Sub(UpperFoot(b, trig), UpperHead(b, trig)) == Scale(b.l, Heading(b, trig))
  {
  }

  /** The extents are ordered, and each corner lies inside them. */
  lemma ExtentsContainCorners(b: Bedframe, trig: Trig)
    ensures LeftEdge(b, trig) <= RightEdge(b, trig)
    ensures Bottom(b, trig) <= Top(b, trig)
    ensures forall p | p in [LowerFoot(b, trig), LowerHead(b), UpperFoot(b, trig), UpperHead(b, trig)] ::
              LeftEdge(b, trig) <= p.x <= RightEdge(b, trig) && Bottom(b, trig) <= p.y <= Top(b, trig)
  {
  }

  /** Deployed flat (cos = 1, sin = 0) with non-negative dimensions, the
      slab spans exactly [x, x + l] by [y, y + t]. */
  lemma DeployedExtents(b: Bedframe, trig: Trig)
    requires Cos(trig, b.angle) == 1.0 && Sin(trig, b.angle) == 0.0
    requires 0.0 <= b.l && 0.0 <= b.t
    ensures LeftEdge(b, trig) == b.x && RightEdge(b, trig) == b.x + b.l
    ensures Bottom(b, trig) == b.y && Top(b, trig) == b.y + b.t
  {
  }
}

=== FILE: geometry.dfy ===
/** Planar points and line segments: the `Point` and `LineSegment` classes of
    src/Murphy/geometric_objects.py, as immutable values. */
module Geometry {
  import opened Numerics
  import opened Outcomes

  datatype Point = Point(x: real, y: real)

  /** `Point.__add__` */
  function Add(p: Point, q: Point): Point {
    Point(p.x + q.x, p.y + q.y)
  }

  /** `Point.__sub__` */
  function Sub(p: Point, q: Point): Point {
    Point(p.x - q.x, p.y - q.y)
  }

  /** The vector p scaled by k. */
  function Scale(k: real, p: Point): Point {
    Point(Mul(k, p.x), Mul(k, p.y))
  }

  /** The midpoint of p and q. */
  function Midpoint(p: Point, q: Point): Point {
    Point((p.x + q.x) / 2.0, (p.y + q.y) / 2.0)
  }

  /** The squared length of the vector p. */
  function Norm2(p: Point): real {
    Sq(p.x) + Sq(p.y)
  }

  /** The z-component of the cross product of u and v. */
  function Cross(u: Point, v: Point): real {
    Mul(u.x, v.y) - Mul(u.y, v.x)
  }

  /** p turned by the angle whose cosine and sine are c and s. */
  function Rotate(p: Point, c: real, s: real): Point {
    Point(Mul(p.x, c) - Mul(p.y, s), Mul(p.x, s) + Mul(p.y, c))
  }

  /** Turning scales squared length by c^2 + s^2, so a true rotation keeps it. */
  lemma RotateNorm(p: Point, c: real, s: real)
    ensures Norm2(Rotate(p, c, s)) == Mul(Norm2(p), Sq(c) + Sq(s))
  {
  }

  /** Turning back by the opposite angle undoes a rotation. */
  lemma RotateInverse(p: Point, c: real, s: real)
    requires Sq(c) + Sq(s) == 1.0
    ensures Rotate(Rotate(p, c, s), c, -s) == p
  {
  }

  lemma AddThenSub(p: Point, q: Point)
    ensures Sub(Add(p, q), q) == p
  {
  }

  lemma SubThenAdd(p: Point, q: Point)
    ensures Add(Sub(p, q), q) == p
  {
  }

  /** A point object, for the in-place operators `+=` and `-=`. */
  class PointObject {
    var x: real
    var y: real

    constructor (x0: real, y0: real)
      ensures x == x0 && y == y0
    {
      x := x0;
      y := y0;
    }

    function Value(): Point
      reads this
    {
      Point(x, y)
    }

    /** `Point.__iadd__`: mutates the receiver and returns it. */
    method AddAssign(other: Point) returns (receiver: PointObject)
      modifies this
      ensures receiver == this
      ensures Value() == Add(old(Value()), other)
    {
      x := x + other.x;
      y := y + other.y;
      receiver := this;
    }

    /** `Point.__isub__`: mutates the receiver and returns it. */
    method SubAssign(other: Point) returns (receiver: PointObject)
      modifies this
      ensures receiver == this
      ensures Value() == Sub(old(Value()), other)
    {
      x := x - other.x;
      y := y - other.y;
      receiver := this;
    }
  }

  /** `Point._distance_to_point`: `sqrt` of the squared coordinate differences. */
  function DistanceToPoint(p: Point, q: Point, sqrt: real -> real): real {
    sqrt(Norm2(Sub(p, q)))
  }

  lemma DistanceSymmetric(p: Point, q: Point, sqrt: real -> real)
    ensures DistanceToPoint(p, q, sqrt) == DistanceToPoint(q, p, sqrt)
  {
    assert Sq(p.x - q.x) == Sq(q.x - p.x);
    assert Sq(p.y - q.y) == Sq(q.y - p.y);
  }

  lemma DistanceToSelf(p: Point, sqrt: real -> real)
    requires SqrtLike(sqrt)
    ensures DistanceToPoint(p, p, sqrt) == 0.0
  {
    assert Norm2(Sub(p, p)) == 0.0;
    SqrtOfZero(sqrt);
  }

  /** The distance is non-negative and squares to dx^2 + dy^2. */
  lemma DistanceSquared(p: Point, q: Point, sqrt: real -> real)
    requires SqrtLike(sqrt)
    ensures 0.0 <= DistanceToPoint(p, q, sqrt)
    ensures Sq(DistanceToPoint(p, q, sqrt)) == Sq(p.x - q.x) + Sq(p.y - q.y)
  {
    SumOfSquaresZero(p.x - q.x, p.y - q.y);
  }

  /** A line segment. The source builds it from a two-element set, so which
      argument becomes `p0` is not determined; `swapped` stands for that
      choice. */
  datatype Segment = Segment(p0: Point, p1: Point)

  /** `LineSegment.__init__` */
  function MakeSegment(a: Point, b: Point, swapped: bool): (seg: Segment)
    ensures {seg.p0, seg.p1} == {a, b}
  {
    if swapped then Segment(b, a) else Segment(a, b)
  }

  /** `LineSegment.length` */
  function Length(seg: Segment, sqrt: real -> real): real {
    DistanceToPoint(seg.p0, seg.p1, sqrt)
  }

  lemma LengthSymmetric(a: Point, b: Point, sqrt: real -> real)
    ensures Length(MakeSegment(a, b, true), sqrt) == Length(MakeSegment(a, b, false), sqrt)
  {
    DistanceSymmetric(a, b, sqrt);
  }

  /** `LineSegment.__add__`: both endpoints moved by q, then re-built through
      the constructor, whose endpoint order is again open. */
  function Translate(seg: Segment, q: Point, swapped: bool): (r: Segment)
    ensures {r.p0, r.p1} == {Add(seg.p0, q), Add(seg.p1, q)}
  {
    MakeSegment(Add(seg.p0, q), Add(seg.p1, q), swapped)
  }

  /** `LineSegment.__sub__`: both endpoints moved by -q. */
  function TranslateBack(seg: Segment, q: Point, swapped: bool): (r: Segment)
    ensures {r.p0, r.p1} == {Sub(seg.p0, q), Sub(seg.p1, q)}
  {
    MakeSegment(Sub(seg.p0, q), Sub(seg.p1, q), swapped)
  }

  /** Moving a segment, either way and with either endpoint order, keeps its length. */
  lemma TranslatePreservesLength(seg: Segment, q: Point, swapped: bool, sqrt: real -> real)
    ensures Length(Translate(seg, q, swapped), sqrt) == Length(seg, sqrt)
    ensures Length(TranslateBack(seg, q, swapped), sqrt) == Length(seg, sqrt)
  {
    assert Sub(Add(seg.p0, q), Add(seg.p1, q)) == Sub(seg.p0, seg.p1);
    assert Sub(Sub(seg.p0, q), Sub(seg.p1, q)) == Sub(seg.p0, seg.p1);
    DistanceSymmetric(Add(seg.p0, q), Add(seg.p1, q), sqrt);
    DistanceSymmetric(Sub(seg.p0, q), Sub(seg.p1, q), sqrt);
  }

  /** Moving a segment by q and then back by q restores its endpoints. */
  lemma TranslateRoundTrip(seg: Segment, q: Point, swapped: bool, swappedBack: bool)
    ensures var r := TranslateBack(Translate(seg, q, swapped), q, swappedBack);
            {r.p0, r.p1} == {seg.p0, seg.p1}
  {
    AddThenSub(seg.p0, q);
    AddThenSub(seg.p1, q);
  }

  /** Numerator of `Point._distance_to_line` for the line through a and b. */
  function LineNumerator(p: Point, a: Point, b: Point): real {
    Abs(Mul(b.y - a.y, p.x) - Mul(b.x - a.x, p.y) + Mul(b.x, a.y) - Mul(b.y, a.x))
  }

  /** Denominator of `Point._distance_to_line`: the distance from a to b. */
  function LineDenominator(a: Point, b: Point, sqrt: real -> real): real {
    sqrt(Sq(b.y - a.y) + Sq(b.x - a.x))
  }

  /** The numerator is |(b - a) x (p - a)|: twice the area of the triangle a b p. */
  lemma LineNumeratorIsCross(p: Point, a: Point, b: Point)
    ensures LineNumerator(p, a, b) == Abs(Cross(Sub(b, a), Sub(p, a)))
  {
  }

  /** It vanishes at both endpoints and does not depend on their order. */
  lemma LineNumeratorProperties(p: Point, a: Point, b: Point)
    ensures LineNumerator(a, a, b) == 0.0
    ensures LineNumerator(b, a, b) == 0.0
    ensures LineNumerator(p, b, a) == LineNumerator(p, a, b)
  {
  }

  /** The denominator is zero exactly when the endpoints coincide. */
  lemma LineDenominatorZero(a: Point, b: Point, sqrt: real -> real)
    requires SqrtLike(sqrt)
    ensures 0.0 <= LineDenominator(a, b, sqrt)
    ensures LineDenominator(a, b, sqrt) == 0.0 <==> a == b
  {
    var n := Sq(b.y - a.y) + Sq(b.x - a.x);
    SumOfSquaresZero(b.y - a.y, b.x - a.x);
    if a == b {
      SqrtOfZero(sqrt);
    } else {
      SqrtOfPositive(sqrt, n);
    }
  }

  /** The corrected `Point._distance_to_line`, reading the segment's `p0`
      and `p1`; a degenerate segment divides by zero. */
  function DistanceToLine(p: Point, seg: Segment, sqrt: real -> real): (r: Result<real>)
    ensures r.Failure? <==> LineDenominator(seg.p0, seg.p1, sqrt) == 0.0
    ensures r.Failure? ==> r.fault == DivisionByZero
  {
    var denominator := LineDenominator(seg.p0, seg.p1, sqrt);
    if denominator == 0.0 then Failure(DivisionByZero)
    else Success(LineNumerator(p, seg.p0, seg.p1) / denominator)
  }

  /** The argument of `Point.distance`: a point, a segment, or anything else. */
  datatype Operand = PointOperand(point: Point) | SegmentOperand(segment: Segment) | OtherOperand

  /** `Point.distance` as written: the segment branch reads `point1` and
      `point2`, which a `LineSegment` never has. */
  function DistanceAsWritten(p: Point, other: Operand, sqrt: real -> real): Result<real> {
    match other
    case PointOperand(q) => Success(DistanceToPoint(p, q, sqrt))
    case SegmentOperand(_) => Failure(MissingAttribute)
    case OtherOperand => Failure(UnsupportedArgument)
  }

  /** As written, no segment distance can ever be computed. */
  lemma DistanceAsWrittenRejectsSegments(p: Point, seg: Segment, sqrt: real -> real)
    ensures DistanceAsWritten(p, SegmentOperand(seg), sqrt) == Failure(MissingAttribute)
  {
  }

  /** `Point.distance` dispatching to the corrected line distance. */
  function Distance(p: Point, other: Operand, sqrt: real -> real): (r: Result<real>)
    ensures other.OtherOperand? <==> r == Failure(UnsupportedArgument)
    ensures other.PointOperand? ==> r == Success(DistanceToPoint(p, other.point, sqrt))
  {
    match other
    case PointOperand(q) => Success(DistanceToPoint(p, q, sqrt))
    case SegmentOperand(seg) => DistanceToLine(p, seg, sqrt)
    case OtherOperand => Failure(UnsupportedArgument)
  }

  /** For a proper segment the corrected distance is defined and is the
      distance from p to the line through the segment: times the segment's
      length it is |(p1 - p0) x (p - p0)|, twice the area of the triangle
      p0 p1 p. So it is non-negative, and zero exactly on the line,
      in particular at either endpoint. */
  lemma DistanceToSegment(p: Point, seg: Segment, sqrt: real -> real)
    requires SqrtLike(sqrt)
    requires seg.p0 != seg.p1
    ensures Distance(p, SegmentOperand(seg), sqrt).Success?
    ensures var v := Distance(p, SegmentOperand(seg), sqrt).value;
            && 0.0 <= v
            && Mul(v, Length(seg, sqrt)) == Abs(Cross(Sub(seg.p1, seg.p0), Sub(p, seg.p0)))
            && (v == 0.0 <==> Cross(Sub(seg.p1, seg.p0), Sub(p, seg.p0)) == 0.0)
    ensures Distance(seg.p0, SegmentOperand(seg), sqrt) == Success(0.0)
    ensures Distance(seg.p1, SegmentOperand(seg), sqrt) == Success(0.0)
  {
    LineDenominatorZero(seg.p0, seg.p1, sqrt);
    LineNumeratorProperties(p, seg.p0, seg.p1);
    LineNumeratorIsCross(p, seg.p0, seg.p1);
    LengthIsDenominator(seg, sqrt);
    var d := LineDenominator(seg.p0, seg.p1, sqrt);
    ProperLineDistance(p, seg, sqrt);
    ProperLineDistance(seg.p0, seg, sqrt);
    ProperLineDistance(seg.p1, seg, sqrt);
    Quotient(LineNumerator(p, seg.p0, seg.p1), d);
    Quotient(LineNumerator(seg.p0, seg.p0, seg.p1), d);
    Quotient(LineNumerator(seg.p1, seg.p0, seg.p1), d);
  }

  /** The segment's length is the denominator of the line distance. */
  lemma LengthIsDenominator(seg: Segment, sqrt: real -> real)
    ensures Length(seg, sqrt) == LineDenominator(seg.p0, seg.p1, sqrt)
  {
    assert Sq(seg.p0.x - seg.p1.x) == Sq(seg.p1.x - seg.p0.x);
    assert Sq(seg.p0.y - seg.p1.y) == Sq(seg.p1.y - seg.p0.y);
  }

  /** `LineSegment.distance_to_point` as written: it asks the point for its
      distance to the segment, which reaches the missing `point1`. */
  function SegmentDistanceToPointAsWritten(seg: Segment, p: Point, sqrt: real -> real): (r: Result<real>)
    ensures r == Failure(MissingAttribute)
  {
    DistanceAsWritten(p, SegmentOperand(seg), sqrt)
  }

  /** `LineSegment.distance_to_point` through the corrected line distance:
      it divides by zero exactly for a degenerate segment. */
  function SegmentDistanceToPoint(seg: Segment, p: Point, sqrt: real -> real): (r: Result<real>)
    ensures r.Failure? <==> LineDenominator(seg.p0, seg.p1, sqrt) == 0.0
    ensures r.Failure? ==> r.fault == DivisionByZero
  {
    Distance(p, SegmentOperand(seg), sqrt)
  }

  /** For a proper segment the corrected `distance_to_point` is the distance
      from p to the segment's line: times the length it is the absolute cross
      product, it is non-negative, zero exactly on the line and so at either
      endpoint. A degenerate segment fails. */
  lemma SegmentDistanceToPointProperties(seg: Segment, p: Point, sqrt: real -> real)
    requires SqrtLike(sqrt)
    ensures SegmentDistanceToPoint(seg, p, sqrt).Failure? <==> seg.p0 == seg.p1
    ensures seg.p0 != seg.p1 ==>
              var v := SegmentDistanceToPoint(seg, p, sqrt).value;
              && 0.0 <= v
              && Mul(v, Length(seg, sqrt)) == Abs(Cross(Sub(seg.p1, seg.p0), Sub(p, seg.p0)))
              && (v == 0.0 <==> Cross(Sub(seg.p1, seg.p0), Sub(p, seg.p0)) == 0.0)
              && SegmentDistanceToPoint(seg, seg.p0, sqrt) == Success(0.0)
              && SegmentDistanceToPoint(seg, seg.p1, sqrt) == Success(0.0)
  {
    LineDenominatorZero(seg.p0, seg.p1, sqrt);
    if seg.p0 != seg.p1 {
      DistanceToSegment(p, seg, sqrt);
    }
  }

  /** The origin is at distance 1 from the vertical segment (1, 0)-(1, 1). */
  lemma SegmentDistanceExample(sqrt: real -> real)
    requires SqrtLike(sqrt)
    ensures SegmentDistanceToPoint(Segment(Point(1.0, 0.0), Point(1.0, 1.0)), Point(0.0, 0.0), sqrt) == Success(1.0)
    ensures SegmentDistanceToPointAsWritten(Segment(Point(1.0, 0.0), Point(1.0, 1.0)), Point(0.0, 0.0), sqrt) == Failure(MissingAttribute)
  {
    var a, b, p := Point(1.0, 0.0), Point(1.0, 1.0), Point(0.0, 0.0);
    SqrtOfOne(sqrt);
    ExampleDenominator(sqrt, a, b);
    ExampleNumerator(p, a, b);
    UnitLineDistance(p, Segment(a, b), sqrt);
  }

  /** Numerator and denominator both 1 give distance 1. */
  lemma UnitLineDistance(p: Point, seg: Segment, sqrt: real -> real)
    requires LineDenominator(seg.p0, seg.p1, sqrt) == 1.0
    requires LineNumerator(p, seg.p0, seg.p1) == 1.0
    ensures SegmentDistanceToPoint(seg, p, sqrt) == Success(1.0)
  {
    ProperLineDistance(p, seg, sqrt);
    DivideByOne(LineNumerator(p, seg.p0, seg.p1), LineDenominator(seg.p0, seg.p1, sqrt));
  }

  /** Away from a degenerate segment the line distance is numerator over denominator. */
  lemma ProperLineDistance(p: Point, seg: Segment, sqrt: real -> real)
    requires LineDenominator(seg.p0, seg.p1, sqrt) != 0.0
    ensures Distance(p, SegmentOperand(seg), sqrt)
            == Success(LineNumerator(p, seg.p0, seg.p1) / LineDenominator(seg.p0, seg.p1, sqrt))
  {
  }

  /** The example segment has length 1, given only sqrt(1) = 1. */
  lemma ExampleDenominator(sqrt: real -> real, a: Point, b: Point)
    requires sqrt(1.0) == 1.0
    requires a == Point(1.0, 0.0) && b == Point(1.0, 1.0)
    ensures LineDenominator(a, b, sqrt) == 1.0
  {
    SquareOfUnit(b.y - a.y);
    SquareOfZero(b.x - a.x);
  }

  /** The origin and the example segment span a triangle of area 1/2. */
  lemma ExampleNumerator(p: Point, a: Point, b: Point)
    requires p == Point(0.0, 0.0) && a == Point(1.0, 0.0) && b == Point(1.0, 1.0)
    ensures LineNumerator(p, a, b) == 1.0
  {
    MulByZero(b.y - a.y, p.x);
    MulByZero(b.x - a.x, p.y);
    MulByZero(b.x, a.y);
    SquareOfUnit(b.y);
    assert b.y == a.x;
  }
}

=== FILE: links.dfy ===
/** The rotating support link of src/Murphy/link.py: a rod of some width
    pinned at (x, y), turned to `angle` degrees, whose far end is meant to
    meet an attachment point fixed in the bedframe's own frame. */
module Links {
  import opened Numerics
  import opened Outcomes
  import opened Geometry
  import Frame

  /** Pivot, length, width, angle in degrees, plot colour, and the
      attachment point in the bedframe's frame. The constructor always reads
      `attachment[0]` and `attachment[1]`, so every link has one. */
  datatype Link = Link(x: real, y: real, length: real, width: real, angle: real,
                       color: string, attachment: Point)

  /** Bounding box of a link. */
  datatype Box = Box(left: real, right: real, top: real, bottom: real)

  function Pivot(k: Link): Point {
    Point(k.x, k.y)
  }

  /** (cos, sin) of the link angle. */
  function Heading(k: Link, trig: Trig): Point {
    Point(Cos(trig, k.angle), Sin(trig, k.angle))
  }

  /** The heading turned a quarter turn counter-clockwise, (-sin, cos). */
  function Normal(k: Link, trig: Trig): Point {
    Point(-Sin(trig, k.angle), Cos(trig, k.angle))
  }

  /** `Link.distal`: the far end of the rod. */
  function Distal(k: Link, trig: Trig): Point {
    var c, s := Cos(trig, k.angle), Sin(trig, k.angle);
    Point(k.x + Mul(k.length, c), k.y + Mul(k.length, s))
  }

  /** `Link.edges`: the two long sides of the rod, each from the pivot end
      to the distal end. */
  function Edges(k: Link, trig: Trig): (Segment, Segment) {
    var w, c, s := k.width / 2.0, Cos(trig, k.angle), Sin(trig, k.angle);
    var d := Distal(k, trig);
    (Segment(Point(k.x - Mul(w, s), k.y + Mul(w, c)), Point(d.x - Mul(w, s), d.y + Mul(w, c))),
     Segment(Point(k.x + Mul(w, s), k.y - Mul(w, c)), Point(d.x + Mul(w, s), d.y - Mul(w, c))))
  }

  /** `Link.extents`: the centreline's box grown by half the width on each side. */
  function Extents(k: Link, trig: Trig): Box {
    var d := Distal(k, trig);
    Box(Min(k.x, d.x) - k.width / 2.0, Max(k.x, d.x) + k.width / 2.0,
        Max(k.y, d.y) + k.width / 2.0, Min(k.y, d.y) - k.width / 2.0)
  }

  /** `Link.CoG`: the middle of the rod. */
  function CoG(k: Link, trig: Trig): Point {
    Midpoint(Pivot(k), Distal(k, trig))
  }

  /** The distal end lies `length` along the heading from the pivot; for a
      true angle the rod's squared length is length^2. */
  lemma DistalOffset(k: Link, trig: Trig)
    ensures Sub(Distal(k, trig), Pivot(k)) == Scale(k.length, Heading(k, trig))
    ensures UnitAt(trig, k.angle) ==> Norm2(Sub(Distal(k, trig), Pivot(k))) == Sq(k.length)
  {
    var h := Heading(k, trig);
    assert Scale(k.length, h) == Rotate(Point(k.length, 0.0), h.x, h.y);
    RotateNorm(Point(k.length, 0.0), h.x, h.y);
  }

  /** The edges are the centreline shifted by +-(width/2) * (-sin, cos): they
      mirror each other about it, their corresponding ends average to the
      pivot and the distal point, and both run parallel to the rod. */
  lemma EdgesMirror(k: Link, trig: Trig)
    ensures var (e0, e1) := Edges(k, trig);
            var offset := Scale(k.width / 2.0, Normal(k, trig));
            && e0 == Segment(Add(Pivot(k), offset), Add(Distal(k, trig), offset))
            && e1 == Segment(Sub(Pivot(k), offset), Sub(Distal(k, trig), offset))
            && Midpoint(e0.p0, e1.p0) == Pivot(k)
            && Midpoint(e0.p1, e1.p1) == Distal(k, trig)
            && Sub(e0.p1, e0.p0) == Sub(Distal(k, trig), Pivot(k))
            && Sub(e1.p1, e1.p0) == Sub(Distal(k, trig), Pivot(k))
  {
  }

  /** With a non-negative width the box is ordered, holds both ends of the
      rod, and is as wide (and as tall) as the rod's horizontal (vertical)
      run plus its width. */
  lemma ExtentsBound(k: Link, trig: Trig)
    requires 0.0 <= k.width
    ensures var b, d := Extents(k, trig), Distal(k, trig);
            && b.left <= b.right && b.bottom <= b.top
            && b.left <= k.x <= b.right && b.bottom <= k.y <= b.top
            && b.left <= d.x <= b.right && b.bottom <= d.y <= b.top
            && b.right - b.left == Abs(d.x - k.x) + k.width
            && b.top - b.bottom == Abs(d.y - k.y) + k.width
  {
  }

  /** The centre of gravity lies half a length along the rod. */
  lemma CoGOnRod(k: Link, trig: Trig)
    ensures CoG(k, trig) == Add(Pivot(k), Scale(k.length / 2.0, Heading(k, trig)))
  {
    var c, s := Cos(trig, k.angle), Sin(trig, k.angle);
    assert Mul(k.length / 2.0, c) == Mul(k.length, c) / 2.0;
    assert Mul(k.length / 2.0, s) == Mul(k.length, s) / 2.0;
  }

  /** The pivot's half-width circle reaches below the floor line y = 0. */
  predicate PivotNearFloor(k: Link) {
    Abs(k.y) < k.width / 2.0
  }

  /** The distal end's half-width circle reaches below the floor line. */
  predicate DistalNearFloor(k: Link, trig: Trig) {
    Abs(Distal(k, trig).y) < k.width / 2.0
  }

  /** The two ends lie strictly on opposite sides of the floor. */
  predicate CrossesFloor(k: Link, trig: Trig) {
    Mul(k.y, Distal(k, trig).y) < 0.0
  }

  /** Where the centreline meets the floor. */
  function FloorCrossing(k: Link, trig: Trig): real
    requires CrossesFloor(k, trig)
  {
    var d := Distal(k, trig);
    SquareNonnegative(k.y);
    k.x - Mul(k.y, d.x - k.x) / (d.y - k.y)
  }

  /** Candidate a0 of `Link.floor_opening`. */
  function PivotCandidate(k: Link, sqrt: real -> real): real {
    var r := k.width / 2.0;
    if PivotNearFloor(k) then k.x + sqrt(Sq(r) - Sq(k.y)) else 0.0
  }

  /** Candidate a1 of `Link.floor_opening`. */
  function DistalCandidate(k: Link, trig: Trig, sqrt: real -> real): real {
    var r, d := k.width / 2.0, Distal(k, trig);
    if DistalNearFloor(k, trig) then d.x + sqrt(Sq(r) - Sq(d.y)) else 0.0
  }

  /** Candidate a2 of `Link.floor_opening`: the crossing point pushed out by
      the horizontal half-width of the rod, |w / sin|. Crossing forces
      sin != 0, so the division is defined. */
  function CrossingCandidate(k: Link, trig: Trig): real {
    if CrossesFloor(k, trig) then
      var s := Sin(trig, k.angle);
      assert s != 0.0 by {
        SquareNonnegative(k.y);
        assert Distal(k, trig).y - k.y == Mul(k.length, s);
      }
      FloorCrossing(k, trig) + Abs((k.width / 2.0) / s)
    else 0.0
  }

  /** `Link.floor_opening`: the largest of the three candidates, each 0 when
      its case does not apply. */
  function FloorOpening(k: Link, trig: Trig, sqrt: real -> real): (r: real)
    ensures !PivotNearFloor(k) && !DistalNearFloor(k, trig) && !CrossesFloor(k, trig) ==> r == 0.0
    ensures PivotNearFloor(k) ==> k.x + sqrt(Sq(k.width / 2.0) - Sq(k.y)) <= r
    ensures DistalNearFloor(k, trig) ==>
              Distal(k, trig).x + sqrt(Sq(k.width / 2.0) - Sq(Distal(k, trig).y)) <= r
    ensures CrossesFloor(k, trig) ==> FloorCrossing(k, trig) + Abs((k.width / 2.0) / Sin(trig, k.angle)) <= r
    ensures PivotCandidate(k, sqrt) <= r && DistalCandidate(k, trig, sqrt) <= r && CrossingCandidate(k, trig) <= r
    ensures r == PivotCandidate(k, sqrt) || r == DistalCandidate(k, trig, sqrt) || r == CrossingCandidate(k, trig)
  {
    Max3(PivotCandidate(k, sqrt), DistalCandidate(k, trig, sqrt), CrossingCandidate(k, trig))
  }

  /** In the guarded cases the square-root arguments are strictly positive. */
  lemma FloorRootArgumentsPositive(k: Link, trig: Trig)
    ensures PivotNearFloor(k) ==> 0.0 < Sq(k.width / 2.0) - Sq(k.y)
    ensures DistalNearFloor(k, trig) ==> 0.0 < Sq(k.width / 2.0) - Sq(Distal(k, trig).y)
  {
    if PivotNearFloor(k) {
      SquareBelow(k.y, k.width / 2.0);
    }
    if DistalNearFloor(k, trig) {
      SquareBelow(Distal(k, trig).y, k.width / 2.0);
    }
  }

  /** |a| < b makes a^2 < b^2. */
  lemma SquareBelow(a: real, b: real)
    requires Abs(a) < b
    ensures Sq(a) < Sq(b)
  {
    var m := Abs(a);
    assert Sq(a) == Sq(m) by {
      if a < 0.0 {
        assert Mul(a, a) == Mul(-a, -a);
      }
    }
    MulPositive(b - m, b + m);
    assert Mul(b - m, b + m) == Sq(b) - Sq(m);
  }

  /** When the rod crosses the floor its rise is length * sin, which is not
      zero, and its centreline meets the floor between its two ends. */
  lemma CrossingBetweenEnds(k: Link, trig: Trig)
    requires CrossesFloor(k, trig)
    ensures Distal(k, trig).y - k.y == Mul(k.length, Sin(trig, k.angle)) != 0.0
    ensures Min(k.x, Distal(k, trig).x) <= FloorCrossing(k, trig) <= Max(k.x, Distal(k, trig).x)
  {
    var d := Distal(k, trig);
    SquareNonnegative(k.y);
    InterceptBetween(k.x, k.y, d.x, d.y);
  }

  /** The line through (x, y) and (X, Y), with y and Y of opposite signs,
      meets y = 0 between x and X. */
  lemma InterceptBetween(x: real, y: real, X: real, Y: real)
    requires Mul(y, Y) < 0.0
    ensures Y - y != 0.0
    ensures Min(x, X) <= x - Mul(y, X - x) / (Y - y) <= Max(x, X)
  {
    if 0.0 < y {
      assert Y < 0.0 by {
        if 0.0 <= Y {
          MulNonnegative(y, Y);
        }
      }
      FractionInUnit(y, y - Y);
    } else {
      assert y < 0.0;
      assert 0.0 < Y by {
        if Y <= 0.0 {
          MulNonnegative(-y, -Y);
        }
      }
      FractionInUnit(-y, Y - y);
      assert y / (y - Y) == -y / (Y - y);
    }
    var u := y / (y - Y);
    assert 0.0 < u < 1.0;
    assert Mul(y, X - x) / (Y - y) == -Mul(u, X - x);
    ConvexStep(u, X - x);
  }

  /** 0 < a < b makes a / b a proper fraction. */
  lemma FractionInUnit(a: real, b: real)
    requires 0.0 < a < b
    ensures 0.0 < a / b < 1.0
  {
    var u := a / b;
    assert Mul(u, b) == a;
    if u <= 0.0 {
      MulNonnegative(-u, b);
    }
    if 1.0 <= u {
      MulNonnegative(u - 1.0, b);
    }
  }

  /** A fraction u in (0, 1) of d lies between 0 and d. */
  lemma ConvexStep(u: real, d: real)
    requires 0.0 < u < 1.0
    ensures Min(0.0, d) <= Mul(u, d) <= Max(0.0, d)
  {
    if 0.0 <= d {
      MulNonnegative(u, d);
      MulNonnegative(1.0 - u, d);
    } else {
      MulNonnegative(u, -d);
      MulNonnegative(1.0 - u, -d);
    }
  }

  /** `Link.room_attachment`: the attachment point carried into room
      coordinates by the bedframe's pose. The source goes through polar form,
      length sqrt(ax^2 + ay^2) and phi = atan(ay / ax), then
      pivot + length * (cos(theta + phi), sin(theta + phi)). By the
      angle-addition formulas that is the pivot plus the attachment turned by
      theta when ax > 0; when ax < 0, atan's principal value points phi the
      opposite way and the point lands reflected through the pivot; ax = 0
      divides by zero. */
  function RoomAttachment(k: Link, frame: Frame.Bedframe, trig: Trig): (r: Result<Point>)
    ensures r.Failure? <==> k.attachment.x == 0.0
    ensures r.Failure? ==> r.fault == DivisionByZero
  {
    var a := k.attachment;
    if a.x == 0.0 then Failure(DivisionByZero)
    else
      var turned := Rotate(a, Cos(trig, frame.angle), Sin(trig, frame.angle));
      if 0.0 < a.x then Success(Add(Frame.Pivot(frame), turned))
      else Success(Sub(Frame.Pivot(frame), turned))
  }

  /** For a true angle, the room attachment lies at the polar length
      sqrt(ax^2 + ay^2) from the bedframe pivot. */
  lemma RoomAttachmentDistance(k: Link, frame: Frame.Bedframe, trig: Trig, sqrt: real -> real)
    requires k.attachment.x != 0.0
    requires UnitAt(trig, frame.angle)
    ensures Norm2(Sub(RoomAttachment(k, frame, trig).value, Frame.Pivot(frame))) == Norm2(k.attachment)
    ensures DistanceToPoint(RoomAttachment(k, frame, trig).value, Frame.Pivot(frame), sqrt)
            == sqrt(Sq(k.attachment.x) + Sq(k.attachment.y))
  {
    var p := Frame.Pivot(frame);
    var c, s := Cos(trig, frame.angle), Sin(trig, frame.angle);
    var turned := Rotate(k.attachment, c, s);
    RotateNorm(k.attachment, c, s);
    if 0.0 < k.attachment.x {
      assert Sub(Add(p, turned), p) == turned;
    } else {
      assert Sub(Sub(p, turned), p) == Point(-turned.x, -turned.y);
      assert Sq(-turned.x) == Sq(turned.x) && Sq(-turned.y) == Sq(turned.y);
    }
  }

  /** For ax > 0, turning the room attachment back by the bedframe angle
      about its pivot recovers the attachment in the bedframe's frame. */
  lemma RoomAttachmentRoundTrip(k: Link, frame: Frame.Bedframe, trig: Trig)
    requires 0.0 < k.attachment.x
    requires UnitAt(trig, frame.angle)
    ensures Rotate(Sub(RoomAttachment(k, frame, trig).value, Frame.Pivot(frame)),
                   Cos(trig, frame.angle), -Sin(trig, frame.angle)) == k.attachment
  {
    var c, s := Cos(trig, frame.angle), Sin(trig, frame.angle);
    SubThenAdd(Rotate(k.attachment, c, s), Frame.Pivot(frame));
    assert Sub(Add(Frame.Pivot(frame), Rotate(k.attachment, c, s)), Frame.Pivot(frame)) == Rotate(k.attachment, c, s);
    RotateInverse(k.attachment, c, s);
  }

  /** `Link.ikea_error`: squared distance from the distal end to the room
      attachment. It is never negative and vanishes exactly when the two
      points meet. */
  function IkeaError(k: Link, frame: Frame.Bedframe, trig: Trig): (r: Result<real>)
    ensures r.Failure? <==> k.attachment.x == 0.0
    ensures r.Failure? ==> r.fault == DivisionByZero
    ensures r.Success? ==> 0.0 <= r.value
    ensures r.Success? ==> (r.value == 0.0 <==> Distal(k, trig) == RoomAttachment(k, frame, trig).value)
  {
    var target :- RoomAttachment(k, frame, trig);
    var d := Distal(k, trig);
    SumOfSquaresZero(d.x - target.x, d.y - target.y);
    Success(Sq(d.x - target.x) + Sq(d.y - target.y))
  }
}

=== FILE: numerics.dfy ===
/** Real-number stand-ins for the floating-point helpers the source uses:
    `math.radians`, `math.cos`/`math.sin`, `** 0.5`, `abs`, `min`, `max`. */
module Numerics {

  /** `math.pi`, written as a decimal. */
  const Pi: real := 3.141592653589793

  /** `math.radians`: degrees times pi/180. */
  function Radians(degrees: real): real {
    degrees * (Pi / 180.0)
  }

  /** Cosine and sine of an angle in radians. They are abstract: the model
      never relies on their values except where a lemma says so. */
  datatype Trig = Trig(cos: real -> real, sin: real -> real)

  /** `cos(radians(degrees))` */
  function Cos(trig: Trig, degrees: real): real {
    trig.cos(Radians(degrees))
  }

  /** `sin(radians(degrees))` */
  function Sin(trig: Trig, degrees: real): real {
    trig.sin(Radians(degrees))
  }

  /** cos^2 + sin^2 = 1 at the given angle: the one trigonometric fact that
      length-preservation lemmas need. */
  predicate UnitAt(trig: Trig, degrees: real) {
    Sq(Cos(trig, degrees)) + Sq(Sin(trig, degrees)) == 1.0
  }

  /** The product of two reals. Squares are `Sq(a) == Mul(a, a)`, so that
      every sign argument about a product goes through `MulPositive` or
      `MulNonnegative` below. */
  function Mul(a: real, b: real): real {
    a * b
  }

  /** The square of a real. */
  function Sq(a: real): real {
    Mul(a, a)
  }

  lemma MulPositive(a: real, b: real)
    requires 0.0 < a && 0.0 < b
    ensures 0.0 < Mul(a, b)
  {
  }

  lemma MulNonnegative(a: real, b: real)
    requires 0.0 <= a && 0.0 <= b
    ensures 0.0 <= Mul(a, b)
  {
  }

  lemma SquareNonnegative(a: real)
    ensures 0.0 <= Sq(a)
  {
    if a < 0.0 {
      MulNonnegative(-a, -a);
      assert Mul(-a, -a) == Mul(a, a);
    } else {
      MulNonnegative(a, a);
    }
  }

  lemma SquareOfNonzero(a: real)
    requires a != 0.0
    ensures 0.0 < Sq(a)
  {
    if a < 0.0 {
      MulPositive(-a, -a);
      assert Mul(-a, -a) == Mul(a, a);
    } else {
      MulPositive(a, a);
    }
  }

  /** `sqrt` behaves as the non-negative square root on non-negative input. */
  ghost predicate SqrtLike(sqrt: real -> real) {
    forall a :: 0.0 <= a ==> 0.0 <= sqrt(a) && Sq(sqrt(a)) == a
  }

  lemma SqrtOfZero(sqrt: real -> real)
    requires SqrtLike(sqrt)
    ensures sqrt(0.0) == 0.0
  {
    var r := sqrt(0.0);
    assert Sq(r) == 0.0;
    if r != 0.0 {
      SquareOfNonzero(r);
    }
  }

  lemma SqrtOfPositive(sqrt: real -> real, a: real)
    requires SqrtLike(sqrt)
    requires 0.0 < a
    ensures 0.0 < sqrt(a)
  {
    var r := sqrt(a);
    assert 0.0 <= r && Sq(r) == a;
  }

  lemma SqrtOfOne(sqrt: real -> real)
    requires SqrtLike(sqrt)
    ensures sqrt(1.0) == 1.0
  {
    var r := sqrt(1.0);
    assert 0.0 <= r && Sq(r) == 1.0;
    assert Mul(r - 1.0, r + 1.0) == Sq(r) - 1.0;
    if r < 1.0 {
      MulPositive(1.0 - r, r + 1.0);
    } else if 1.0 < r {
      MulPositive(r - 1.0, r + 1.0);
    }
  }

  lemma SquareOfUnit(d: real)
    requires d == 1.0
    ensures Sq(d) == 1.0
  {
  }

  lemma MulByZero(a: real, b: real)
    requires b == 0.0
    ensures Mul(a, b) == 0.0
  {
  }

  /** A non-negative numerator over a positive denominator. */
  lemma Quotient(n: real, d: real)
    requires 0.0 <= n && 0.0 < d
    ensures 0.0 <= n / d && Mul(n / d, d) == n
    ensures n / d == 0.0 <==> n == 0.0
  {
  }

  lemma DivideByOne(a: real, d: real)
    requires d == 1.0
    ensures a / d == a
  {
  }

  lemma SquareOfZero(d: real)
    requires d == 0.0
    ensures Sq(d) == 0.0
  {
  }

  function Abs(a: real): (r: real)
    ensures 0.0 <= r && (r == a || r == -a)
  {
    if a < 0.0 then -a else a
  }

  function Min(a: real, b: real): (r: real)
    ensures r <= a && r <= b && (r == a || r == b)
  {
    if b < a then b else a
  }

  function Max(a: real, b: real): (r: real)
    ensures a <= r && b <= r && (r == a || r == b)
  {
    if a < b then b else a
  }

  function Max3(a: real, b: real, c: real): (r: real)
    ensures a <= r && b <= r && c <= r
    ensures r == a || r == b || r == c
  {
    Max(Max(a, b), c)
  }

  /** r is the least of four values: below each, and equal to one. */
  predicate IsMin4(r: real, a: real, b: real, c: real, d: real) {
    && r <= a && r <= b && r <= c && r <= d
    && (r == a || r == b || r == c || r == d)
  }

  /** r is the greatest of four values: above each, and equal to one. */
  predicate IsMax4(r: real, a: real, b: real, c: real, d: real) {
    && a <= r && b <= r && c <= r && d <= r
    && (r == a || r == b || r == c || r == d)
  }

  function Min4(a: real, b: real, c: real, d: real): (r: real)
    ensures IsMin4(r, a, b, c, d)
  {
    Min(Min(Min(a, b), c), d)
  }

  function Max4(a: real, b: real, c: real, d: real): (r: real)
    ensures IsMax4(r, a, b, c, d)
  {
    Max(Max(Max(a, b), c), d)
  }

  /** The sum of two squares vanishes only when both terms do. */
  lemma SumOfSquaresZero(a: real, b: real)
    ensures 0.0 <= Sq(a) + Sq(b)
    ensures Sq(a) + Sq(b) == 0.0 <==> a == 0.0 && b == 0.0
  {
    SquareNonnegative(a);
    SquareNonnegative(b);
    if a != 0.0 {
      SquareOfNonzero(a);
    }
    if b != 0.0 {
      SquareOfNonzero(b);
    }
  }
}

=== FILE: outcomes.dfy ===
/** Failure-compatible wrappers standing in for Python's `None` and for the
    exceptions the modelled code can raise. */
module Outcomes {

  /** A value that may be absent (Python `None`). */
  datatype Option<+T> = None | Some(value: T)

  /** The exceptions the modelled code raises, by cause. */
  datatype Fault =
    | DivisionByZero       // ZeroDivisionError
    | MissingAttribute     // AttributeError, including attribute access on None
    | UnsupportedArgument  // the bare `raise Exception` of an unknown operand type
    | AssertionFailed      // AssertionError from a failed `assert`

  /** Either a value or the fault that stopped its computation. */
  datatype Result<+T> = Success(value: T) | Failure(fault: Fault) {

    predicate IsFailure() {
      Failure?
    }

    function PropagateFailure<U>(): Result<U>
      requires Failure?
    {
      Failure(fault)
    }

    function Extract(): T
      requires Success?
    {
      value
    }
  }
}
